=== FILE: README.md ===
# UK take-home-pay calculator — Dafny model

This project models the calculation core of the salary visualiser in
`src/hooks/use-chart-data.ts`. The module-level function
`calculateChartDataPointFromGross` (use-chart-data.ts:101-200), which
`addChartPoint` and the three `update*` operations of the `useChartData` hook
call, takes a gross salary and the
user's settings and computes one chart row `{gross, pension, tax, ni, net}`:

1. a salary-sacrifice pension (a percentage of gross, a defined amount, or
   none), capped at gross;
2. the personal allowance, tapered by £1 for every £2 of adjusted gross above
   £100,000;
3. income tax from the bracket table `0 / 37701 / 125141 / ∞`, with the
   tapered allowance added to every threshold;
4. employee National Insurance from its own table `12571 / 50271 / ∞`;
5. net pay, `gross − tax − ni − pension`.

It also models the operations the hook returns (use-chart-data.ts:293-307):
adding a chart point (append, sort by gross, recompute every row), removing a
point, resetting to the seed data, changing the allowance, the contribution
type or the contribution, and toggling the proportional view.

Files:

- `brackets.dfy` (module `Brackets`): bracket tables with an open-ended top
  band (`Threshold = Finite(t) | Unbounded`, standing for `Infinity`), the
  band-by-band reduction exactly as `calculateChartDataPointFromGross` writes
  it — the "previous
  threshold" of band `i` is that of `table[max(i − 1, 0)]` — and an
  independent textbook definition of marginal banding (`MarginalSum`), with
  the proof that they agree.
- `calculator.dfy` (module `Calculator`): the two tables, pension, taper, tax,
  NI and the row, with closed forms, bounds and monotonicity.
- `chart.dfy` (module `Chart`): the store as an explicit state value
  `ChartState(rows, settings, proportional)` and each operation as a pure
  function from state to state.

All amounts are exact `real`s; `0.2`, `0.08` and so on are the exact
fractions.

Some behaviour of the code is worth stating up front, since the model keeps
it as written:

- No student-loan or postgraduate-loan repayment is computed. The sidebar
  (src/components/app-sidebar.tsx:34, :165) calls an `updateStudentLoans`
  that the hook does not define or return, so there is nothing of it to
  model.
- Adding a gross that is already on the chart appends it again; nothing
  rejects it. `Chart.AddDuplicateKeepsBoth` states that.
- The seed rows `DEFAULT_CHART_DATA` (use-chart-data.ts:16-41) are not all
  what the calculator computes. The calculator's thresholds (NI 12571 and
  50271, tax 37701 and 125141) give NI 3015.92 at gross 50270, where the seed
  row has 3016, and tax 42515.8 and NI 4513.38 at 125140, where the seed row
  has 42516 and 4513.4 (`Chart.DefaultRowsDifferAtBandEdges`). The seed rows
  at gross 0 and 12570 do agree with the calculator
  (`Chart.DefaultRowMatchesAtZero`, `Chart.DefaultRowMatchesAtAllowance`).
- `updatePensionContributionType` stores a contribution clamped to 0..100
  when switching to percentage, but recomputes the rows with the contribution
  as it was before the clamp. `Chart.StaleContributionAfterTypeChange` gives a
  state where the rows then disagree with the stored settings.

## Model

| member | source | states |
|---|---|---|
| `Brackets.Cap` | src/hooks/use-chart-data.ts:156-156 | `Math.min(v, threshold)` never exceeds `v`, is one of the two for a finite threshold, and is `v` itself for the `Infinity` band |
| `Brackets.BandTerm` | src/hooks/use-chart-data.ts:153-161 | one band's contribution, `max((min(adj, T + A) − prev − A) · rate, 0)`, is never negative |
| `Brackets.ReduceBands` | src/hooks/use-chart-data.ts:132-164 | the `reduce` accumulator starting from 0 stays non-negative after every band |
| `Brackets.FirstBandContributesNothing` | src/hooks/use-chart-data.ts:157-157 | because band 0 reads its own threshold as `prev` (index `max(0 − 1, 0)`), it contributes 0 for any amount and shift when its rate is non-negative |
| `Brackets.LaterBandIsMarginal` | src/hooks/use-chart-data.ts:153-161 | band `i ≥ 1` charges its rate on exactly the part of `adj − A` lying in `(T[i−1], T[i]]` |
| `Brackets.BandedSumIsMarginal` | src/hooks/use-chart-data.ts:132-191 | the reduction as written equals textbook marginal banding of `adj − A` over bands 1.. for any table with non-negative rates |
| `Brackets.MarginalSumMonotone` | src/hooks/use-chart-data.ts:132-191 | marginal banding never charges less on a larger amount |
| `Brackets.MarginalSumZeroBelowFirst` | src/hooks/use-chart-data.ts:132-191 | with increasing thresholds nothing at or below the first threshold is charged |
| `Brackets.BandedSumMonotone` | src/hooks/use-chart-data.ts:132-191 | for a fixed shift the reduction is non-decreasing in the amount |
| `Brackets.BandedSumShiftInvariant` | src/hooks/use-chart-data.ts:132-164 | the reduction depends on amount and allowance only through `adj − A`, and is non-decreasing in it |
| `Brackets.BandedSumZeroBelowFirst` | src/hooks/use-chart-data.ts:132-191 | nothing is charged until the amount passes the first threshold plus the shift |
| `Calculator.TablesWellFormed` | src/hooks/use-chart-data.ts:88-99 | both tables have finite thresholds except the last, strictly increasing thresholds and non-negative rates |
| `Calculator.Pension` | src/hooks/use-chart-data.ts:108-120 | the pension never exceeds gross; it is the requested amount when that is at most gross and gross otherwise |
| `Calculator.PensionByType` | src/hooks/use-chart-data.ts:108-120 | none gives 0, a percentage in 0..100 gives exactly `gross·c/100`, a defined amount gives `min(c, gross)`; `c ≥ 0` gives a non-negative pension, and adjusted gross is never negative |
| `Calculator.PercentagePensionMonotone` | src/hooks/use-chart-data.ts:108-120 | under a non-negative percentage a larger gross never yields a smaller pension, whether it is the share itself (up to 100) or capped at gross (above 100) |
| `Calculator.AdjustedGrossMonotone` | src/hooks/use-chart-data.ts:108-120 | for any type and contribution, the adjusted gross is non-negative and never decreases as gross grows; a percentage above 100 pins it at 0 |
| `Calculator.PercentageAboveGrossPinsAtZero` | src/hooks/use-chart-data.ts:108-120 | a percentage above 100 takes the whole non-negative gross as pension, so the adjusted gross is 0 |
| `Calculator.TaperedAllowance` | src/hooks/use-chart-data.ts:123-130 | the allowance is unchanged up to £100,000; above it, for `A ≥ 0`, it is `max(0, A − (adj − 100000)/2)`, lies in `[0, A]` and is 0 from `100000 + 2A`; a negative `A` is returned unchanged at any adjusted gross; it never exceeds `A` |
| `Calculator.TaperNonIncreasing` | src/hooks/use-chart-data.ts:123-130 | the tapered allowance never grows as the adjusted gross grows |
| `Calculator.Tax` | src/hooks/use-chart-data.ts:132-164 | income tax is never negative |
| `Calculator.NationalInsurance` | src/hooks/use-chart-data.ts:166-191 | National Insurance is never negative |
| `Calculator.TaxZeroWithinAllowance` | src/hooks/use-chart-data.ts:88-93 | no tax is due while the adjusted gross is within the (tapered) allowance |
| `Calculator.TaxClosedForm` | src/hooks/use-chart-data.ts:132-164 | tax on `x = adj − A` is 0 for `x ≤ 0`, `0.2x` up to 37701, `7540.2 + 0.4(x − 37701)` up to 125141, and `42516.2 + 0.45(x − 125141)` above |
| `Calculator.NiClosedForm` | src/hooks/use-chart-data.ts:166-191 | NI is 0 up to 12571, `(adj − 12571)·0.08` up to 50271, and `37700·0.08 + (adj − 50271)·0.02` above; an amount exactly at a threshold is charged at the lower band's rate |
| `Calculator.TaxMonotone` | src/hooks/use-chart-data.ts:132-164 | for a fixed allowance, tax never decreases as adjusted gross grows |
| `Calculator.NiMonotone` | src/hooks/use-chart-data.ts:166-191 | NI never decreases as adjusted gross grows |
| `Calculator.CalculateRow` | src/hooks/use-chart-data.ts:101-200 | the row keeps the input gross, its pension never exceeds gross, tax and NI are non-negative, and net plus tax, NI and pension adds back up to gross |
| `Calculator.RowMonotoneInGross` | src/hooks/use-chart-data.ts:101-200 | under fixed settings a larger non-negative gross never yields less tax or less NI, taper included, and under a non-negative percentage never a smaller pension (a share of gross up to 100, gross itself above) |
| `Calculator.NetNonNegative` | src/hooks/use-chart-data.ts:193-193 | with a non-negative gross and allowance, net pay is never negative |
| `Calculator.NegativeAllowanceCanMakeNetNegative` | src/hooks/use-chart-data.ts:123-133 | nothing caps the deductions jointly: a negative allowance makes net negative even at gross 0 |
| `Chart.Insert` | src/hooks/use-chart-data.ts:225-226 | inserting a row adds exactly that row to the list's contents |
| `Chart.InsertSorted` | src/hooks/use-chart-data.ts:225-226 | inserting into a list ascending by gross keeps it ascending |
| `Chart.Grosses` | src/hooks/use-chart-data.ts:295-295 | the returned `chartPoints` has one entry per row, each the gross of the row at the same position |
| `Chart.InsertGrosses` | src/hooks/use-chart-data.ts:225-226 | inserting a row adds exactly its gross to the chart points |
| `Chart.SortByGross` | src/hooks/use-chart-data.ts:225-226 | the sorted rows are ascending by gross and a permutation of the input, so the chart points are the same multiset |
| `Chart.Recompute` | src/hooks/use-chart-data.ts:227-234 | recomputing keeps the gross sequence and makes every row what the calculator gives for its gross |
| `Chart.RemoveGross` | src/hooks/use-chart-data.ts:240-240 | no kept row has the removed gross, every kept row was in the input, and an ascending list stays ascending |
| `Chart.RemoveGrossCounts` | src/hooks/use-chart-data.ts:240-240 | every copy of a row with the removed gross goes and every copy of every other row stays |
| `Chart.RemoveGrossDistributes` | src/hooks/use-chart-data.ts:240-240 | filtering a concatenation filters each part, so kept rows keep their relative order |
| `Chart.RemoveGrossKeepsOthers` | src/hooks/use-chart-data.ts:240-240 | removing a gross no row has leaves the list unchanged |
| `Chart.AddChartPoint` | src/hooks/use-chart-data.ts:216-237 | adding gives one more row, ascending by gross, whose chart points are the old ones plus the new gross, every row recomputed under the current settings |
| `Chart.AddDuplicateKeepsBoth` | src/hooks/use-chart-data.ts:225-226 | adding a gross already on the chart is not rejected: it then appears at least twice |
| `Chart.RemoveChartPoint` | src/hooks/use-chart-data.ts:239-242 | removal keeps exactly the rows with a different gross, unrecomputed, keeps ascending order, and keeps rows consistent with the settings if they were |
| `Chart.ResetChartPointsToDefault` | src/hooks/use-chart-data.ts:244-249 | reset restores exactly the 15 seed rows `DEFAULT_CHART_DATA` (ascending by gross) and the default settings — allowance 12570, percentage type, contribution 0 — and leaves the proportional flag alone |
| `Chart.UpdateTaxFreeAllowance` | src/hooks/use-chart-data.ts:251-262 | only the allowance setting changes, the chart points stay, and every row agrees with the new settings |
| `Chart.UpdatePensionContributionType` | src/hooks/use-chart-data.ts:264-278 | the type is stored and the allowance kept; for percentage the stored contribution is `min(100, max(c, 0))`: 0 for a negative contribution, 100 above 100, unchanged within 0..100; for other types it is unchanged; the chart points stay and the rows are computed with the new type and the unclamped contribution |
| `Chart.StaleContributionAfterTypeChange` | src/hooks/use-chart-data.ts:264-278 | switching from a defined contribution of −10 to percentage stores 0 but leaves a row with pension −100, so the rows no longer agree with the stored settings |
| `Chart.TypeChangeConsistentWithinRange` | src/hooks/use-chart-data.ts:264-278 | when the clamp changes nothing (another type, or a contribution in 0..100) the rows agree with the stored settings |
| `Chart.UpdatePensionContribution` | src/hooks/use-chart-data.ts:280-291 | only the contribution setting changes, the chart points stay, and every row agrees with the new settings |
| `Chart.SetProportional` | src/hooks/use-chart-data.ts:79-79 | the flag is set and rows and settings are untouched |
| `Chart.DefaultRowsSorted` | src/hooks/use-chart-data.ts:16-41 | the seed rows are ascending by gross |
| `Chart.DefaultRowMatchesAtZero` | src/hooks/use-chart-data.ts:18-18 | the seed row at gross 0 is exactly what the calculator gives under the default settings |
| `Chart.DefaultRowMatchesAtAllowance` | src/hooks/use-chart-data.ts:20-20 | the seed row at gross 12570 is exactly what the calculator gives under the default settings: no tax and no NI |
| `Chart.DefaultRowsDifferAtBandEdges` | src/hooks/use-chart-data.ts:28-36 | at 50270 the calculator gives NI 3015.92 (seed row: 3016) and at 125140 tax 42515.8 and NI 4513.38 (seed row: 42516 and 4513.4) |
| `Chart.ApplyKeepsSorted` | src/hooks/use-chart-data.ts:216-291 | each operation the hook returns keeps the chart points in ascending order |
| `Chart.RunKeepsSorted` | src/hooks/use-chart-data.ts:216-291 | any sequence of the hook's operations from an ascending state keeps the chart points ascending |
| `Chart.ReachableStatesSorted` | src/hooks/use-chart-data.ts:64-86 | every state reachable from the initial store has ascending chart points |

## Left out

- The zustand store, its `persist` and `devtools` middleware and localStorage
  (src/hooks/use-chart-data.ts:64-86): replaced by the explicit `ChartState`
  value and the `Op`/`Run` sequence of operations.
- IEEE-754 rounding: amounts are exact reals, so values such as
  `37699 · 0.08` are exact where the browser rounds them. `Infinity` is the
  `Unbounded` threshold rather than a number.
- Non-finite inputs (NaN, ±Infinity as a gross or setting): the model's inputs
  are real numbers.
- The React rendering, the recharts stacked/"proportional" view
  (src/App.tsx), the sidebar input parsing (src/components/app-sidebar.tsx),
  the combobox (src/components/ui/multi-combobox.tsx) and app start-up
  (src/main.tsx) are presentation and are not modelled.
- Student-loan and postgraduate repayments: the hook computes none, so there
  is no behaviour to model.
- Chart.SortByGross: stability of the engine's sort is not stated, because
  every row is recomputed from its gross right after sorting, so only the
  sorted gross sequence, fixed by its multiset, is observable.
- Chart.RemoveChartPoint: its own contract states membership; the exact
  multiplicities and order are stated by `Chart.RemoveGrossCounts` and
  `Chart.RemoveGrossDistributes` about the filter it applies.

=== FILE: brackets.dfy ===
/** Progressive bracket tables and the per-band reduction the calculator runs
    over them. The reduction is written the way the `reduce` callbacks in
    `calculateChartDataPointFromGross` write it; `MarginalSum` is an
    independent textbook definition of marginal banding, and
    `BandedSumIsMarginal` connects the two. */
module Brackets {

  function Min(a: real, b: real): real { if a <= b then a else b }

  function Max(a: real, b: real): real { if a >= b then a else b }

  /** The upper boundary of a band: a finite amount, or the open-ended top
      band that the source writes as `Infinity`. */
  datatype Threshold = Finite(amount: real) | Unbounded

  datatype Bracket = Bracket(threshold: Threshold, rate: real)

  /** `Infinity + s` stays `Infinity`. */
  function Shift(t: Threshold, s: real): Threshold {
    match t
    case Finite(a) => Finite(a + s)
    case Unbounded => Unbounded
  }

  /** `Math.min(v, t)`, where `Math.min(v, Infinity)` is `v`. */
  function Cap(v: real, t: Threshold): (r: real)
    ensures r <= v
    ensures t.Finite? ==> r <= t.amount && (r == v || r == t.amount)
    ensures t.Unbounded? ==> r == v
  {
    match t
    case Finite(a) => Min(v, a)
    case Unbounded => v
  }

  /** Every threshold some band reads as its "previous" one is finite: all but
      the last, and the first (band 0 reads its own). */
  predicate PrevFinite(table: seq<Bracket>) {
    && (forall i :: 0 <= i < |table| - 1 ==> table[i].threshold.Finite?)
    && (|table| > 0 ==> table[0].threshold.Finite?)
  }

  predicate NonNegativeRates(table: seq<Bracket>) {
    forall i :: 0 <= i < |table| ==> table[i].rate >= 0.0
  }

  /** Finite thresholds strictly increase along the table. */
  predicate Increasing(table: seq<Bracket>) {
    forall i, j :: 0 <= i < j < |table| && table[i].threshold.Finite? && table[j].threshold.Finite? ==>
      table[i].threshold.amount < table[j].threshold.amount
  }

  predicate WellFormed(table: seq<Bracket>) {
    PrevFinite(table) && NonNegativeRates(table) && Increasing(table)
  }

  /** The raw threshold band `i` subtracts: that of `table[max(i - 1, 0)]`,
      so band 0 subtracts its own threshold. */
  function PrevAmount(table: seq<Bracket>, i: nat): real
    requires PrevFinite(table) && i < |table|
  {
    table[if i >= 1 then i - 1 else 0].threshold.amount
  }

  /** One band's contribution: `max((min(adj, threshold + shift) - prev - shift) * rate, 0)`. */
  function BandTerm(table: seq<Bracket>, i: nat, adj: real, shift: real): (r: real)
    requires PrevFinite(table) && i < |table|
    ensures r >= 0.0
  {
    Max((Cap(adj, Shift(table[i].threshold, shift)) - PrevAmount(table, i) - shift) * table[i].rate, 0.0)
  }

  /** The accumulator after the first `k` bands of a left-to-right `reduce`
      starting from 0. */
  function ReduceBands(table: seq<Bracket>, k: nat, adj: real, shift: real): (r: real)
    requires PrevFinite(table) && k <= |table|
    ensures r >= 0.0
  {
    if k == 0 then 0.0
    else ReduceBands(table, k - 1, adj, shift) + BandTerm(table, k - 1, adj, shift)
  }

  /** The whole reduction over the table. */
  function BandedSum(table: seq<Bracket>, adj: real, shift: real): real
    requires PrevFinite(table)
  {
    ReduceBands(table, |table|, adj, shift)
  }

  /** The part of `x` lying in the band `(lo, hi]`. */
  function Portion(x: real, lo: real, hi: Threshold): (r: real)
    ensures r >= 0.0
    ensures x <= lo ==> r == 0.0
    ensures hi.Finite? && lo <= hi.amount ==> r <= hi.amount - lo
  {
    Max(0.0, Cap(x, hi) - lo)
  }

  /** Reference definition of marginal banding: of an amount `x`, the part in
      each band `(t[i-1], t[i]]` for `1 <= i < k` is charged that band's rate,
      and nothing at or below the first threshold is charged. */
  function MarginalSum(table: seq<Bracket>, k: nat, x: real): real
    requires PrevFinite(table) && k <= |table|
  {
    if k <= 1 then 0.0
    else MarginalSum(table, k - 1, x) + table[k - 1].rate * Portion(x, table[k - 2].threshold.amount, table[k - 1].threshold)
  }

  lemma MulNonNegMonotone(r: real, a: real, b: real)
    requires r >= 0.0 && a <= b
    ensures r * a <= r * b
  {
    assert r * b - r * a == r * (b - a);
  }

  /** With a non-negative rate, clipping the product at 0 is clipping the amount at 0. */
  lemma ClipProduct(d: real, rate: real)
    requires rate >= 0.0
    ensures Max(d * rate, 0.0) == rate * Max(0.0, d)
  {
    if d < 0.0 {
      MulNonNegMonotone(rate, d, 0.0);
    }
  }

  /** Band 0 reads its own threshold as `prev`, so under a non-negative rate
      it never contributes. */
  lemma {:induction false} FirstBandContributesNothing(table: seq<Bracket>, adj: real, shift: real)
    requires PrevFinite(table) && NonNegativeRates(table) && |table| > 0
    ensures BandTerm(table, 0, adj, shift) == 0.0
  {
    var t := table[0].threshold.amount;
    var d := Cap(adj, Shift(table[0].threshold, shift)) - t - shift;
    assert d <= 0.0;
    ClipProduct(d, table[0].rate);
  }

  /** Band `i >= 1` charges its rate on the part of `adj - shift` lying
      between the previous raw threshold and its own. */
  lemma {:induction false} LaterBandIsMarginal(table: seq<Bracket>, i: nat, adj: real, shift: real)
    requires PrevFinite(table) && NonNegativeRates(table) && 1 <= i < |table|
    ensures BandTerm(table, i, adj, shift)
         == table[i].rate * Portion(adj - shift, table[i - 1].threshold.amount, table[i].threshold)
  {
    assert PrevAmount(table, i) == table[i - 1].threshold.amount;
    match table[i].threshold {
      case Finite(t) =>
        assert Cap(adj, Finite(t + shift)) - shift == Cap(adj - shift, Finite(t));
      case Unbounded =>
    }
    var d := Cap(adj, Shift(table[i].threshold, shift)) - PrevAmount(table, i) - shift;
    assert d == Cap(adj - shift, table[i].threshold) - table[i - 1].threshold.amount;
    ClipProduct(d, table[i].rate);
  }

  /** The source's reduction is marginal banding of `adj - shift`. */
  lemma {:induction false} BandedSumIsMarginal(table: seq<Bracket>, k: nat, adj: real, shift: real)
    requires PrevFinite(table) && NonNegativeRates(table) && k <= |table|
    ensures ReduceBands(table, k, adj, shift) == MarginalSum(table, k, adj - shift)
  {
    if k == 0 {
    } else if k == 1 {
      FirstBandContributesNothing(table, adj, shift);
    } else {
      BandedSumIsMarginal(table, k - 1, adj, shift);
      LaterBandIsMarginal(table, k - 1, adj, shift);
    }
  }

  lemma PortionMonotone(x: real, y: real, lo: real, hi: Threshold)
    requires x <= y
    ensures Portion(x, lo, hi) <= Portion(y, lo, hi)
  {
  }

  /** Marginal banding never charges less on a larger amount. */
  lemma {:induction false} MarginalSumMonotone(table: seq<Bracket>, k: nat, x: real, y: real)
    requires PrevFinite(table) && NonNegativeRates(table) && k <= |table| && x <= y
    ensures MarginalSum(table, k, x) <= MarginalSum(table, k, y)
  {
    if k > 1 {
      MarginalSumMonotone(table, k - 1, x, y);
      MarginalStepMonotone(table, k, x, y);
    }
  }

  /** The band added at step `k` charges no less on the larger amount. */
  lemma MarginalStepMonotone(table: seq<Bracket>, k: nat, x: real, y: real)
    requires PrevFinite(table) && NonNegativeRates(table) && 2 <= k <= |table| && x <= y
    ensures MarginalSum(table, k, x) - MarginalSum(table, k - 1, x) <= MarginalSum(table, k, y) - MarginalSum(table, k - 1, y)
  {
    var lo := table[k - 2].threshold.amount;
    var px, py := Portion(x, lo, table[k - 1].threshold), Portion(y, lo, table[k - 1].threshold);
    PortionMonotone(x, y, lo, table[k - 1].threshold);
    MulNonNegMonotone(table[k - 1].rate, px, py);
    var cx, cy := table[k - 1].rate * px, table[k - 1].rate * py;
    assert MarginalSum(table, k, x) == MarginalSum(table, k - 1, x) + cx;
    assert MarginalSum(table, k, y) == MarginalSum(table, k - 1, y) + cy;
  }

  /** Nothing at or below the first threshold is charged. */
  lemma {:induction false} MarginalSumZeroBelowFirst(table: seq<Bracket>, k: nat, x: real)
    requires WellFormed(table) && 0 < k <= |table| && x <= table[0].threshold.amount
    ensures MarginalSum(table, k, x) == 0.0
  {
    if k > 1 {
      MarginalSumZeroBelowFirst(table, k - 1, x);
      var lo := table[k - 2].threshold.amount;
      assert table[0].threshold.amount <= lo by {
        if k - 2 > 0 {
          assert table[0].threshold.amount < table[k - 2].threshold.amount;
        }
      }
      assert Portion(x, lo, table[k - 1].threshold) == 0.0;
    }
  }

  /** The reduction as written is non-decreasing in the amount, for a fixed shift. */
  lemma BandedSumMonotone(table: seq<Bracket>, adj1: real, adj2: real, shift: real)
    requires PrevFinite(table) && NonNegativeRates(table) && adj1 <= adj2
    ensures BandedSum(table, adj1, shift) <= BandedSum(table, adj2, shift)
  {
    BandedSumIsMarginal(table, |table|, adj1, shift);
    BandedSumIsMarginal(table, |table|, adj2, shift);
    MarginalSumMonotone(table, |table|, adj1 - shift, adj2 - shift);
  }

  /** The reduction depends on the amount and the shift only through their difference. */
  lemma BandedSumShiftInvariant(table: seq<Bracket>, adj1: real, shift1: real, adj2: real, shift2: real)
    requires PrevFinite(table) && NonNegativeRates(table)
    requires adj1 - shift1 <= adj2 - shift2
    ensures BandedSum(table, adj1, shift1) <= BandedSum(table, adj2, shift2)
    ensures adj1 - shift1 == adj2 - shift2 ==> BandedSum(table, adj1, shift1) == BandedSum(table, adj2, shift2)
  {
    BandedSumIsMarginal(table, |table|, adj1, shift1);
    BandedSumIsMarginal(table, |table|, adj2, shift2);
    MarginalSumMonotone(table, |table|, adj1 - shift1, adj2 - shift2);
  }

  /** Nothing is charged until the amount passes the first (shifted) threshold. */
  lemma BandedSumZeroBelowFirst(table: seq<Bracket>, adj: real, shift: real)
    requires WellFormed(table) && |table| > 0 && adj <= table[0].threshold.amount + shift
    ensures BandedSum(table, adj, shift) == 0.0
  {
    BandedSumIsMarginal(table, |table|, adj, shift);
    MarginalSumZeroBelowFirst(table, |table|, adj - shift);
  }
}

=== FILE: calculator.dfy ===
/** The UK take-home-pay calculation for one gross income: salary-sacrifice
    pension, tapered personal allowance, income tax and employee National
    Insurance from their bracket tables, and net pay. */
module Calculator {
  import opened Brackets

  /** Income-tax bands, as amounts above the (tapered) allowance. */
  const TaxBrackets: seq<Bracket> := [
    Bracket(Finite(0.0), 0.0),
    Bracket(Finite(37701.0), 0.2),
    Bracket(Finite(125141.0), 0.4),
    Bracket(Unbounded, 0.45)
  ]

  /** Employee National Insurance bands, on the adjusted gross directly. */
  const NiBrackets: seq<Bracket> := [
    Bracket(Finite(12571.0), 0.0),
    Bracket(Finite(50271.0), 0.08),
    Bracket(Unbounded, 0.02)
  ]

  /** Adjusted gross above which the allowance tapers. */
  const TaperStart: real := 100000.0

  lemma TablesWellFormed()
    ensures WellFormed(TaxBrackets) && WellFormed(NiBrackets)
  {
  }

  datatype PensionType = Percentage | Defined | NoContribution

  /** The configuration one row is computed under. */
  datatype Settings = Settings(taxFreeAllowance: real, pensionType: PensionType, contribution: real)

  /** One computed chart point; all amounts in pounds per year. */
  datatype Row = Row(gross: real, pension: real, tax: real, ni: real, net: real)

  /** The contribution the settings ask for, before it is capped at gross. */
  function RequestedPension(gross: real, pensionType: PensionType, contribution: real): real {
    match pensionType
    case Percentage => gross * contribution / 100.0
    case Defined => contribution
    case NoContribution => 0.0
  }

  /** The salary-sacrifice pension actually taken: what is requested, but never more than gross. */
  function Pension(gross: real, pensionType: PensionType, contribution: real): (p: real)
    ensures p <= gross
    ensures RequestedPension(gross, pensionType, contribution) <= gross ==> p == RequestedPension(gross, pensionType, contribution)
    ensures RequestedPension(gross, pensionType, contribution) > gross ==> p == gross
  {
    var requested := RequestedPension(gross, pensionType, contribution);
    if requested > gross then gross else requested
  }

  /** The personal allowance after the high-income taper: £1 lost per £2 of
      adjusted gross above the taper start, never below 0 nor above the
      configured allowance. */
  function TaperedAllowance(adjustedGross: real, allowance: real): (r: real)
    ensures r <= allowance
    ensures adjustedGross <= TaperStart ==> r == allowance
    ensures allowance >= 0.0 ==> 0.0 <= r
    ensures allowance >= 0.0 && adjustedGross > TaperStart ==> r == Max(0.0, allowance - (adjustedGross - TaperStart) / 2.0)
    ensures allowance >= 0.0 && adjustedGross >= TaperStart + 2.0 * allowance ==> r == 0.0
    ensures allowance < 0.0 ==> r == allowance
  {
    if adjustedGross > TaperStart then
      Min(Max(0.0, allowance - (adjustedGross - TaperStart) / 2.0), allowance)
    else
      allowance
  }

  function Tax(adjustedGross: real, allowance: real): (t: real)
    ensures t >= 0.0
  {
    BandedSum(TaxBrackets, adjustedGross, allowance)
  }

  function NationalInsurance(adjustedGross: real): (n: real)
    ensures n >= 0.0
  {
    BandedSum(NiBrackets, adjustedGross, 0.0)
  }

  /** The row for one gross income under the given settings. */
  function CalculateRow(gross: real, settings: Settings): (row: Row)
    ensures row.gross == gross
    ensures row.pension <= gross
    ensures row.tax >= 0.0 && row.ni >= 0.0
    ensures row.net + row.tax + row.ni + row.pension == gross
  {
    var pension := Pension(gross, settings.pensionType, settings.contribution);
    var adjustedGross := gross - pension;
    var allowance := TaperedAllowance(adjustedGross, settings.taxFreeAllowance);
    var tax := Tax(adjustedGross, allowance);
    var ni := NationalInsurance(adjustedGross);
    Row(gross, pension, tax, ni, gross - tax - ni - pension)
  }

  function AdjustedGross(gross: real, settings: Settings): real {
    gross - Pension(gross, settings.pensionType, settings.contribution)
  }

  /** The pension by contribution type: none takes nothing, a percentage
      within 0..100 takes exactly that share, a defined amount is taken up to
      gross; a non-negative contribution never yields a negative pension. */
  lemma PensionByType(gross: real, pensionType: PensionType, contribution: real)
    requires gross >= 0.0
    ensures var p := Pension(gross, pensionType, contribution);
      && (pensionType == NoContribution ==> p == 0.0)
      && (pensionType == Percentage && 0.0 <= contribution <= 100.0 ==> p == gross * contribution / 100.0)
      && (pensionType == Defined ==> p == Min(contribution, gross))
      && (contribution >= 0.0 ==> 0.0 <= p)
      && 0.0 <= gross - p
  {
    var requested := RequestedPension(gross, pensionType, contribution);
    match pensionType
    case Percentage =>
      if contribution >= 0.0 {
        MulNonNegMonotone(gross, 0.0, contribution);
        assert requested >= 0.0;
      }
      if 0.0 <= contribution <= 100.0 {
        PercentageWithinGross(gross, contribution);
        assert requested <= gross;
      }
    case Defined =>
    case NoContribution =>
  }

  /** A percentage of at most 100 never reaches the cap. */
  lemma PercentageWithinGross(gross: real, contribution: real)
    requires gross >= 0.0 && contribution <= 100.0
    ensures gross * contribution / 100.0 <= gross
  {
    MulNonNegMonotone(gross, contribution, 100.0);
  }

  /** A percentage above 100 of a positive gross asks for more than gross. */
  lemma PercentageAboveGross(gross: real, contribution: real)
    requires gross > 0.0 && contribution > 100.0
    ensures RequestedPension(gross, Percentage, contribution) > gross
  {
    var excess := contribution - 100.0;
    assert gross * excess > 0.0;
    assert gross * contribution == gross * 100.0 + gross * excess;
  }

  /** A non-negative percentage never takes less from a larger gross: below
      100 it is the share itself, above 100 the cap at gross. */
  lemma PercentagePensionMonotone(gross1: real, gross2: real, contribution: real)
    requires 0.0 <= gross1 <= gross2 && 0.0 <= contribution
    ensures Pension(gross1, Percentage, contribution) <= Pension(gross2, Percentage, contribution)
  {
    if contribution <= 100.0 {
      PensionByType(gross1, Percentage, contribution);
      PensionByType(gross2, Percentage, contribution);
      var d := gross2 - gross1;
      assert 0.0 <= d * contribution by {
        MulNonNegMonotone(d, 0.0, contribution);
      }
      assert gross2 * contribution == gross1 * contribution + d * contribution;
    } else if gross1 > 0.0 {
      PercentageAboveGross(gross1, contribution);
      PercentageAboveGross(gross2, contribution);
    } else {
      assert RequestedPension(gross1, Percentage, contribution) == 0.0;
      if gross2 > 0.0 {
        PercentageAboveGross(gross2, contribution);
      } else {
        assert RequestedPension(gross2, Percentage, contribution) == 0.0;
      }
    }
  }

  /** The adjusted gross never decreases as gross grows, whatever the settings. */
  lemma AdjustedGrossMonotone(gross1: real, gross2: real, settings: Settings)
    requires 0.0 <= gross1 <= gross2
    ensures 0.0 <= AdjustedGross(gross1, settings) <= AdjustedGross(gross2, settings)
    ensures settings.pensionType == Percentage && settings.contribution > 100.0 ==>
      AdjustedGross(gross1, settings) == 0.0 && AdjustedGross(gross2, settings) == 0.0
  {
    var c := settings.contribution;
    if settings.pensionType == Percentage {
      if c <= 100.0 {
        PercentageAdjustedMonotone(gross1, gross2, settings);
      } else {
        PercentageAboveGrossPinsAtZero(gross1, settings);
        PercentageAboveGrossPinsAtZero(gross2, settings);
      }
    }
  }

  /** A percentage above 100 takes the whole gross, leaving nothing to tax. */
  lemma PercentageAboveGrossPinsAtZero(gross: real, settings: Settings)
    requires 0.0 <= gross
    requires settings.pensionType == Percentage && settings.contribution > 100.0
    ensures AdjustedGross(gross, settings) == 0.0
  {
    if gross > 0.0 {
      PercentageAboveGross(gross, settings.contribution);
    } else {
      assert RequestedPension(gross, Percentage, settings.contribution) == 0.0;
    }
  }

  lemma PercentageAdjustedMonotone(gross1: real, gross2: real, settings: Settings)
    requires 0.0 <= gross1 <= gross2
    requires settings.pensionType == Percentage && settings.contribution <= 100.0
    ensures 0.0 <= AdjustedGross(gross1, settings) <= AdjustedGross(gross2, settings)
  {
    var c := settings.contribution;
    var d := gross2 - gross1;
    PercentageWithinGross(gross1, c);
    PercentageWithinGross(gross2, c);
    PercentageWithinGross(d, c);
    assert gross2 * c == gross1 * c + d * c;
    ShareStep(gross1, gross2, gross1 * c, gross2 * c, d * c);
    assert AdjustedGross(gross1, settings) == gross1 - gross1 * c / 100.0;
    assert AdjustedGross(gross2, settings) == gross2 - gross2 * c / 100.0;
  }

  /** The linear core of `PercentageAdjustedMonotone`, with the products as plain numbers. */
  lemma ShareStep(gross1: real, gross2: real, scaled1: real, scaled2: real, scaledDiff: real)
    requires scaled1 / 100.0 <= gross1
    requires scaled2 == scaled1 + scaledDiff && scaledDiff / 100.0 <= gross2 - gross1
    ensures 0.0 <= gross1 - scaled1 / 100.0 <= gross2 - scaled2 / 100.0
  {
  }

  /** The allowance never grows as the adjusted gross grows. */
  lemma TaperNonIncreasing(adj1: real, adj2: real, allowance: real)
    requires adj1 <= adj2
    ensures TaperedAllowance(adj2, allowance) <= TaperedAllowance(adj1, allowance)
  {
  }

  /** Tax is 0 while the adjusted gross stays within the allowance. */
  lemma TaxZeroWithinAllowance(adjustedGross: real, allowance: real)
    requires adjustedGross <= allowance
    ensures Tax(adjustedGross, allowance) == 0.0
  {
    TablesWellFormed();
    BandedSumZeroBelowFirst(TaxBrackets, adjustedGross, allowance);
  }

  /** Tax in closed form on the amount above the allowance. Because band 1's
      threshold is 37701, a full 37701 is charged at 20% before 40% applies. */
  lemma TaxClosedForm(adjustedGross: real, allowance: real)
    ensures var x := adjustedGross - allowance;
      var t := Tax(adjustedGross, allowance);
      && (x <= 0.0 ==> t == 0.0)
      && (0.0 < x <= 37701.0 ==> t == 0.2 * x)
      && (37701.0 < x <= 125141.0 ==> t == 7540.2 + 0.4 * (x - 37701.0))
      && (125141.0 < x ==> t == 7540.2 + 34976.0 + 0.45 * (x - 125141.0))
  {
    var x := adjustedGross - allowance;
    TablesWellFormed();
    BandedSumIsMarginal(TaxBrackets, 4, adjustedGross, allowance);
    assert MarginalSum(TaxBrackets, 1, x) == 0.0;
    assert MarginalSum(TaxBrackets, 2, x) == 0.2 * Portion(x, 0.0, Finite(37701.0));
    assert MarginalSum(TaxBrackets, 3, x) == MarginalSum(TaxBrackets, 2, x) + 0.4 * Portion(x, 37701.0, Finite(125141.0));
    assert MarginalSum(TaxBrackets, 4, x) == MarginalSum(TaxBrackets, 3, x) + 0.45 * Portion(x, 125141.0, Unbounded);
  }

  /** National Insurance in closed form. An amount exactly at a threshold is
      charged at the lower band's rate. */
  lemma NiClosedForm(adjustedGross: real)
    ensures var n := NationalInsurance(adjustedGross);
      && (adjustedGross <= 12571.0 ==> n == 0.0)
      && (12571.0 < adjustedGross <= 50271.0 ==> n == (adjustedGross - 12571.0) * 0.08)
      && (50271.0 < adjustedGross ==> n == 37700.0 * 0.08 + (adjustedGross - 50271.0) * 0.02)
  {
    var x := adjustedGross;
    TablesWellFormed();
    BandedSumIsMarginal(NiBrackets, 3, adjustedGross, 0.0);
    assert MarginalSum(NiBrackets, 1, x) == 0.0;
    assert MarginalSum(NiBrackets, 2, x) == 0.08 * Portion(x, 12571.0, Finite(50271.0));
    assert MarginalSum(NiBrackets, 3, x) == MarginalSum(NiBrackets, 2, x) + 0.02 * Portion(x, 50271.0, Unbounded);
  }

  /** For a fixed allowance, tax never decreases as the adjusted gross grows. */
  lemma TaxMonotone(adj1: real, adj2: real, allowance: real)
    requires adj1 <= adj2
    ensures Tax(adj1, allowance) <= Tax(adj2, allowance)
  {
    TablesWellFormed();
    BandedSumMonotone(TaxBrackets, adj1, adj2, allowance);
  }

  /** National Insurance never decreases as the adjusted gross grows. */
  lemma NiMonotone(adj1: real, adj2: real)
    requires adj1 <= adj2
    ensures NationalInsurance(adj1) <= NationalInsurance(adj2)
  {
    TablesWellFormed();
    BandedSumMonotone(NiBrackets, adj1, adj2, 0.0);
  }

  /** End to end: under fixed settings, a larger gross never yields less tax
      or less National Insurance, the taper included. */
  lemma RowMonotoneInGross(gross1: real, gross2: real, settings: Settings)
    requires 0.0 <= gross1 <= gross2
    ensures CalculateRow(gross1, settings).tax <= CalculateRow(gross2, settings).tax
    ensures CalculateRow(gross1, settings).ni <= CalculateRow(gross2, settings).ni
    ensures settings.pensionType == Percentage && 0.0 <= settings.contribution ==>
      CalculateRow(gross1, settings).pension <= CalculateRow(gross2, settings).pension
  {
    if settings.pensionType == Percentage && 0.0 <= settings.contribution {
      PercentagePensionMonotone(gross1, gross2, settings.contribution);
    }
    var adj1, adj2 := AdjustedGross(gross1, settings), AdjustedGross(gross2, settings);
    AdjustedGrossMonotone(gross1, gross2, settings);
    var a1 := TaperedAllowance(adj1, settings.taxFreeAllowance);
    var a2 := TaperedAllowance(adj2, settings.taxFreeAllowance);
    TaperNonIncreasing(adj1, adj2, settings.taxFreeAllowance);
    TablesWellFormed();
    BandedSumShiftInvariant(TaxBrackets, adj1, a1, adj2, a2);
    NiMonotone(adj1, adj2);
  }

  /** With a non-negative allowance, net pay is never negative: tax and NI
      together take at most 53% of the adjusted gross. */
  lemma NetNonNegative(gross: real, settings: Settings)
    requires gross >= 0.0 && settings.taxFreeAllowance >= 0.0
    ensures CalculateRow(gross, settings).net >= 0.0
  {
    var row := CalculateRow(gross, settings);
    var adj := AdjustedGross(gross, settings);
    var allowance := TaperedAllowance(adj, settings.taxFreeAllowance);
    TaxClosedForm(adj, allowance);
    NiClosedForm(adj);
    assert row.tax <= 0.45 * Max(0.0, adj - allowance);
    assert row.ni <= 0.08 * adj;
  }

  /** A negative allowance can push net pay below 0, even at zero gross. */
  lemma NegativeAllowanceCanMakeNetNegative()
    ensures CalculateRow(0.0, Settings(-1000000.0, NoContribution, 0.0)).net < 0.0
  {
    var s := Settings(-1000000.0, NoContribution, 0.0);
    assert Pension(0.0, NoContribution, 0.0) == 0.0;
    assert TaperedAllowance(0.0, -1000000.0) == -1000000.0;
    TaxClosedForm(0.0, -1000000.0);
    var tax := Tax(0.0, -1000000.0);
    assert tax > 0.0;
    var row := CalculateRow(0.0, s);
    assert row.tax == tax;
    assert row.net == 0.0 - tax - row.ni;
  }
}

=== FILE: chart.dfy ===
/** The chart store behind `useChartData`: the list of computed rows, the
    current settings, and the operations the hook returns.
    Each operation is a pure transformation of an explicit state value. */
module Chart {
  import opened Brackets
  import opened Calculator

  datatype ChartState = ChartState(rows: seq<Row>, settings: Settings, proportional: bool)

  /** The chart points: the gross of every row, in order. */
  function Grosses(rows: seq<Row>): (gs: seq<real>)
    ensures |gs| == |rows|
    ensures forall i :: 0 <= i < |rows| ==> gs[i] == rows[i].gross
  {
    seq(|rows|, i requires 0 <= i < |rows| => rows[i].gross)
  }

  predicate SortedByGross(rows: seq<Row>) {
    forall i, j :: 0 <= i < j < |rows| ==> rows[i].gross <= rows[j].gross
  }

  /** Every row is what the calculator gives for its gross under `settings`. */
  predicate Consistent(rows: seq<Row>, settings: Settings) {
    forall i :: 0 <= i < |rows| ==> rows[i] == CalculateRow(rows[i].gross, settings)
  }

  const DefaultSettings: Settings := Settings(12570.0, Percentage, 0.0)

  /** The seed rows, taken from external calculators rather than from `CalculateRow`. */
  const DefaultRows: seq<Row> := [
    Row(0.0, 0.0, 0.0, 0.0, 0.0),
    Row(12570.0, 0.0, 0.0, 0.0, 12570.0),
    Row(15000.0, 0.0, 486.0, 194.4, 14319.6),
    Row(25000.0, 0.0, 2486.0, 994.4, 21519.6),
    Row(35000.0, 0.0, 4486.0, 1794.4, 28719.6),
    Row(45000.0, 0.0, 6486.0, 2594.4, 35919.6),
    Row(50270.0, 0.0, 7540.0, 3016.0, 39714.0),
    Row(60000.0, 0.0, 11432.0, 3210.6, 45357.4),
    Row(75000.0, 0.0, 17432.0, 3510.6, 54057.4),
    Row(100000.0, 0.0, 27432.0, 4010.6, 68557.4),
    Row(110000.0, 0.0, 33432.0, 4210.6, 72357.4),
    Row(125140.0, 0.0, 42516.0, 4513.4, 78110.6),
    Row(150000.0, 0.0, 53703.0, 5010.6, 91286.4),
    Row(200000.0, 0.0, 76203.0, 6010.6, 117786.4),
    Row(300000.0, 0.0, 121203.0, 8010.6, 170786.4)
  ]

  /** The store's state before any interaction. */
  const InitialState: ChartState := ChartState(DefaultRows, DefaultSettings, false)

  /** Inserts `x` after every leading row whose gross is at most its own. */
  function Insert(sorted: seq<Row>, x: Row): (r: seq<Row>)
    ensures |r| == |sorted| + 1
    ensures multiset(r) == multiset(sorted) + multiset{x}
  {
    if |sorted| == 0 then [x]
    else if x.gross < sorted[0].gross then [x] + sorted
    else
      assert sorted == [sorted[0]] + sorted[1..];
      [sorted[0]] + Insert(sorted[1..], x)
  }

  /** Inserting into an ascending list keeps it ascending. */
  lemma {:induction false} InsertSorted(sorted: seq<Row>, x: Row)
    requires SortedByGross(sorted)
    ensures SortedByGross(Insert(sorted, x))
  {
    if |sorted| > 0 && x.gross >= sorted[0].gross {
      var rest := Insert(sorted[1..], x);
      InsertSorted(sorted[1..], x);
      assert forall i :: 0 <= i < |rest| ==> sorted[0].gross <= rest[i].gross by {
        forall i | 0 <= i < |rest|
          ensures sorted[0].gross <= rest[i].gross
        {
          assert rest[i] in multiset(sorted[1..]) + multiset{x};
        }
      }
    }
  }

  lemma GrossesConcat(a: seq<Row>, b: seq<Row>)
    ensures Grosses(a + b) == Grosses(a) + Grosses(b)
  {
  }

  /** Inserting a row adds exactly its gross to the chart points. */
  lemma {:induction false} InsertGrosses(sorted: seq<Row>, x: Row)
    ensures multiset(Grosses(Insert(sorted, x))) == multiset(Grosses(sorted)) + multiset{x.gross}
  {
    assert Grosses([x]) == [x.gross];
    if |sorted| == 0 {
      assert Insert(sorted, x) == [x];
    } else if x.gross < sorted[0].gross {
      assert Insert(sorted, x) == [x] + sorted;
      GrossesConcat([x], sorted);
    } else {
      var rest := Insert(sorted[1..], x);
      assert Insert(sorted, x) == [sorted[0]] + rest;
      assert sorted == [sorted[0]] + sorted[1..];
      GrossesConcat([sorted[0]], rest);
      GrossesConcat([sorted[0]], sorted[1..]);
      InsertGrosses(sorted[1..], x);
    }
  }

  /** A stable insertion sort by gross, standing in for the engine's stable
      `Array.prototype.sort` with comparator `a.gross - b.gross`. */
  function SortByGross(rows: seq<Row>): (r: seq<Row>)
    ensures |r| == |rows|
    ensures SortedByGross(r)
    ensures multiset(r) == multiset(rows)
    ensures multiset(Grosses(r)) == multiset(Grosses(rows))
  {
    if |rows| == 0 then []
    else
      var init := rows[..|rows| - 1];
      var last := rows[|rows| - 1];
      assert rows == init + [last];
      assert Grosses(rows) == Grosses(init) + [last.gross];
      var sortedInit := SortByGross(init);
      InsertSorted(sortedInit, last);
      InsertGrosses(sortedInit, last);
      Insert(sortedInit, last)
  }

  /** Every row recomputed from its gross under `settings`. */
  function Recompute(rows: seq<Row>, settings: Settings): (r: seq<Row>)
    ensures Grosses(r) == Grosses(rows)
    ensures Consistent(r, settings)
  {
    seq(|rows|, i requires 0 <= i < |rows| => CalculateRow(rows[i].gross, settings))
  }

  /** The rows whose gross differs from `gross`, in their original order. */
  function RemoveGross(rows: seq<Row>, gross: real): (r: seq<Row>)
    ensures forall i :: 0 <= i < |r| ==> r[i].gross != gross && r[i] in rows
    ensures SortedByGross(rows) ==> SortedByGross(r)
  {
    if |rows| == 0 then []
    else (if rows[0].gross == gross then [] else [rows[0]]) + RemoveGross(rows[1..], gross)
  }

  /** Removal takes out every copy of a row with that gross and keeps every
      copy of every other row. */
  lemma {:induction false} RemoveGrossCounts(rows: seq<Row>, gross: real, x: Row)
    ensures multiset(RemoveGross(rows, gross))[x] == if x.gross == gross then 0 else multiset(rows)[x]
  {
    if |rows| > 0 {
      var head := if rows[0].gross == gross then [] else [rows[0]];
      assert rows == [rows[0]] + rows[1..];
      assert RemoveGross(rows, gross) == head + RemoveGross(rows[1..], gross);
      RemoveGrossCounts(rows[1..], gross, x);
    }
  }

  /** `addChartPoint`: append a point, sort by gross, recompute every row.
      A gross already on the chart is added again. */
  function AddChartPoint(s: ChartState, gross: real): (r: ChartState)
    ensures |r.rows| == |s.rows| + 1
    ensures SortedByGross(r.rows)
    ensures multiset(Grosses(r.rows)) == multiset(Grosses(s.rows)) + multiset{gross}
    ensures Consistent(r.rows, s.settings)
    ensures r.settings == s.settings && r.proportional == s.proportional
  {
    var point := Row(gross, 0.0, 0.0, 0.0, gross);
    var sorted := SortByGross(s.rows + [point]);
    assert Grosses(s.rows + [point]) == Grosses(s.rows) + [gross];
    s.(rows := Recompute(sorted, s.settings))
  }

  /** `removeChartPoint`: drop every row with that gross; the others are kept
      as they were, not recomputed. */
  function RemoveChartPoint(s: ChartState, gross: real): (r: ChartState)
    ensures forall i :: 0 <= i < |r.rows| ==> r.rows[i].gross != gross && r.rows[i] in s.rows
    ensures forall x :: x in s.rows && x.gross != gross ==> x in r.rows
    ensures SortedByGross(s.rows) ==> SortedByGross(r.rows)
    ensures Consistent(s.rows, s.settings) ==> Consistent(r.rows, r.settings)
    ensures r.settings == s.settings && r.proportional == s.proportional
  {
    var rows := RemoveGross(s.rows, gross);
    assert forall x :: x in s.rows && x.gross != gross ==> x in rows by {
      forall x | x in s.rows && x.gross != gross
        ensures x in rows
      {
        RemoveGrossCounts(s.rows, gross, x);
      }
    }
    s.(rows := rows)
  }

  /** `resetChartPointsToDefault`: seed rows and default settings; the
      proportional flag is left alone. */
  function ResetChartPointsToDefault(s: ChartState): (r: ChartState)
    ensures SortedByGross(r.rows) && |r.rows| == 15
    ensures r.settings.taxFreeAllowance == 12570.0
    ensures r.settings.pensionType == Percentage && r.settings.contribution == 0.0
    ensures r.rows == DefaultRows && r.settings == DefaultSettings
    ensures r.proportional == s.proportional
  {
    DefaultRowsSorted();
    s.(rows := DefaultRows, settings := DefaultSettings)
  }

  /** `updateTaxFreeAllowance`: store the allowance and recompute every row with it. */
  function UpdateTaxFreeAllowance(s: ChartState, amount: real): (r: ChartState)
    ensures r.settings == s.settings.(taxFreeAllowance := amount)
    ensures Grosses(r.rows) == Grosses(s.rows)
    ensures Consistent(r.rows, r.settings)
    ensures r.proportional == s.proportional
  {
    var settings := s.settings.(taxFreeAllowance := amount);
    s.(rows := Recompute(s.rows, settings), settings := settings)
  }

  /** `updatePensionContributionType`: store the type and, for a percentage,
      a contribution clamped to 0..100; but recompute the rows with the new
      type and the contribution as it was before the clamp. */
  function UpdatePensionContributionType(s: ChartState, pensionType: PensionType): (r: ChartState)
    ensures r.settings.pensionType == pensionType
    ensures r.settings.taxFreeAllowance == s.settings.taxFreeAllowance
    ensures pensionType != Percentage ==> r.settings.contribution == s.settings.contribution
    ensures pensionType == Percentage ==> 0.0 <= r.settings.contribution <= 100.0
    ensures pensionType == Percentage && s.settings.contribution < 0.0 ==> r.settings.contribution == 0.0
    ensures pensionType == Percentage && s.settings.contribution > 100.0 ==> r.settings.contribution == 100.0
    ensures pensionType == Percentage && 0.0 <= s.settings.contribution <= 100.0 ==>
      r.settings.contribution == s.settings.contribution
    ensures Grosses(r.rows) == Grosses(s.rows)
    ensures Consistent(r.rows, s.settings.(pensionType := pensionType))
    ensures r.proportional == s.proportional
  {
    var current := s.settings.contribution;
    var stored := if pensionType == Percentage then Min(100.0, Max(current, 0.0)) else current;
    var computeWith := s.settings.(pensionType := pensionType);
    s.(rows := Recompute(s.rows, computeWith), settings := computeWith.(contribution := stored))
  }

  /** `updatePensionContribution`: store the contribution and recompute every row with it. */
  function UpdatePensionContribution(s: ChartState, amount: real): (r: ChartState)
    ensures r.settings == s.settings.(contribution := amount)
    ensures Grosses(r.rows) == Grosses(s.rows)
    ensures Consistent(r.rows, r.settings)
    ensures r.proportional == s.proportional
  {
    var settings := s.settings.(contribution := amount);
    s.(rows := Recompute(s.rows, settings), settings := settings)
  }

  /** `setProportional`: a display flag only; rows and settings are untouched. */
  function SetProportional(s: ChartState, value: bool): (r: ChartState)
    ensures r.proportional == value
    ensures r.rows == s.rows && r.settings == s.settings
  {
    s.(proportional := value)
  }

  lemma DefaultRowsSorted()
    ensures SortedByGross(DefaultRows)
  {
  }

  /** The seed row at gross 0 is what the calculator gives under the default settings. */
  lemma DefaultRowMatchesAtZero()
    ensures DefaultRows[0] == CalculateRow(0.0, DefaultSettings)
  {
    assert Pension(0.0, Percentage, 0.0) == 0.0;
    assert TaperedAllowance(0.0, 12570.0) == 12570.0;
    TaxZeroWithinAllowance(0.0, 12570.0);
    NiClosedForm(0.0);
  }

  /** The seed row at the allowance, 12570, is what the calculator gives under
      the default settings: no tax and no NI yet. */
  lemma DefaultRowMatchesAtAllowance()
    ensures DefaultRows[1] == CalculateRow(12570.0, DefaultSettings)
  {
    assert Pension(12570.0, Percentage, 0.0) == 0.0;
    assert TaperedAllowance(12570.0, 12570.0) == 12570.0;
    TaxZeroWithinAllowance(12570.0, 12570.0);
    NiClosedForm(12570.0);
  }

  /** The seed rows at 50270 and 125140 are not what the calculator gives:
      its NI threshold 12571 and tax thresholds 37701 and 125141 sit one pound
      above the amounts the seed rows were built with. */
  lemma DefaultRowsDifferAtBandEdges()
    ensures CalculateRow(50270.0, DefaultSettings) == Row(50270.0, 0.0, 7540.0, 3015.92, 39714.08)
    ensures CalculateRow(50270.0, DefaultSettings) != DefaultRows[6]
    ensures CalculateRow(125140.0, DefaultSettings) == Row(125140.0, 0.0, 42515.8, 4513.38, 78110.82)
    ensures CalculateRow(125140.0, DefaultSettings) != DefaultRows[11]
  {
    assert TaperedAllowance(50270.0, 12570.0) == 12570.0;
    TaxClosedForm(50270.0, 12570.0);
    NiClosedForm(50270.0);
    assert TaperedAllowance(125140.0, 12570.0) == 0.0;
    TaxClosedForm(125140.0, 0.0);
    NiClosedForm(125140.0);
  }

  /** Removal distributes over concatenation; with `RemoveGrossKeepsOthers`
      this fixes the order of what is kept. */
  lemma {:induction false} RemoveGrossDistributes(a: seq<Row>, b: seq<Row>, gross: real)
    ensures RemoveGross(a + b, gross) == RemoveGross(a, gross) + RemoveGross(b, gross)
  {
    if |a| > 0 {
      var head := if a[0].gross == gross then [] else [a[0]];
      assert (a + b)[0] == a[0];
      assert (a + b)[1..] == a[1..] + b;
      assert RemoveGross(a + b, gross) == head + RemoveGross(a[1..] + b, gross);
      assert RemoveGross(a, gross) == head + RemoveGross(a[1..], gross);
      RemoveGrossDistributes(a[1..], b, gross);
    } else {
      assert a + b == b;
    }
  }

  /** Removing a gross no row has changes nothing. */
  lemma {:induction false} RemoveGrossKeepsOthers(rows: seq<Row>, gross: real)
    requires forall i :: 0 <= i < |rows| ==> rows[i].gross != gross
    ensures RemoveGross(rows, gross) == rows
  {
    if |rows| > 0 {
      RemoveGrossKeepsOthers(rows[1..], gross);
      assert rows == [rows[0]] + rows[1..];
    }
  }

  /** Adding a gross that is already on the chart does not reject it: the
      chart then holds it at least twice. */
  lemma AddDuplicateKeepsBoth(s: ChartState, gross: real)
    requires gross in Grosses(s.rows)
    ensures multiset(Grosses(AddChartPoint(s, gross).rows))[gross] >= 2
  {
  }

  /** Changing the type to percentage stores the clamped contribution but
      recomputes with the old one, so a negative contribution leaves rows that
      disagree with the stored settings. */
  lemma StaleContributionAfterTypeChange()
    ensures var s := ChartState([CalculateRow(1000.0, Settings(12570.0, Defined, -10.0))], Settings(12570.0, Defined, -10.0), false);
      var r := UpdatePensionContributionType(s, Percentage);
      r.settings.contribution == 0.0 && r.rows[0].pension == -100.0 && !Consistent(r.rows, r.settings)
  {
    var s := ChartState([CalculateRow(1000.0, Settings(12570.0, Defined, -10.0))], Settings(12570.0, Defined, -10.0), false);
    var r := UpdatePensionContributionType(s, Percentage);
    assert r.rows[0] == CalculateRow(1000.0, Settings(12570.0, Percentage, -10.0));
    assert RequestedPension(1000.0, Percentage, -10.0) == -100.0;
    assert RequestedPension(1000.0, Percentage, 0.0) == 0.0;
    assert CalculateRow(1000.0, r.settings).pension == 0.0;
  }

  /** Without a clamp to undo, the rows agree with the stored settings. */
  lemma TypeChangeConsistentWithinRange(s: ChartState, pensionType: PensionType)
    requires pensionType != Percentage || 0.0 <= s.settings.contribution <= 100.0
    ensures Consistent(UpdatePensionContributionType(s, pensionType).rows, UpdatePensionContributionType(s, pensionType).settings)
  {
  }

  /** The state-changing operations the hook returns (`addChartPoint` through
      `setProportional`). */
  datatype Op =
    | AddPoint(gross: real)
    | RemovePoint(gross: real)
    | Reset
    | SetAllowance(amount: real)
    | SetPensionType(pensionType: PensionType)
    | SetContribution(amount: real)
    | SetProportionalView(value: bool)

  function Apply(s: ChartState, op: Op): ChartState {
    match op
    case AddPoint(g) => AddChartPoint(s, g)
    case RemovePoint(g) => RemoveChartPoint(s, g)
    case Reset => ResetChartPointsToDefault(s)
    case SetAllowance(a) => UpdateTaxFreeAllowance(s, a)
    case SetPensionType(t) => UpdatePensionContributionType(s, t)
    case SetContribution(c) => UpdatePensionContribution(s, c)
    case SetProportionalView(v) => SetProportional(s, v)
  }

  function Run(s: ChartState, ops: seq<Op>): ChartState
    decreases |ops|
  {
    if |ops| == 0 then s else Run(Apply(s, ops[0]), ops[1..])
  }

  /** Every operation keeps the chart points in ascending order. */
  lemma ApplyKeepsSorted(s: ChartState, op: Op)
    requires SortedByGross(s.rows)
    ensures SortedByGross(Apply(s, op).rows)
  {
    match op
    case SetAllowance(_) =>
      SortedByGrossDependsOnGrosses(s.rows, Apply(s, op).rows);
    case SetPensionType(_) =>
      SortedByGrossDependsOnGrosses(s.rows, Apply(s, op).rows);
    case SetContribution(_) =>
      SortedByGrossDependsOnGrosses(s.rows, Apply(s, op).rows);
    case _ =>
  }

  lemma SortedByGrossDependsOnGrosses(a: seq<Row>, b: seq<Row>)
    requires Grosses(a) == Grosses(b) && SortedByGross(a)
    ensures SortedByGross(b)
  {
    forall i, j | 0 <= i < j < |b|
      ensures b[i].gross <= b[j].gross
    {
      assert Grosses(a)[i] == Grosses(b)[i] && Grosses(a)[j] == Grosses(b)[j];
    }
  }

  /** Whatever sequence of the hook's operations runs from a sorted state, the
      chart points stay in ascending order. */
  lemma {:induction false} RunKeepsSorted(s: ChartState, ops: seq<Op>)
    requires SortedByGross(s.rows)
    ensures SortedByGross(Run(s, ops).rows)
    decreases |ops|
  {
    if |ops| > 0 {
      ApplyKeepsSorted(s, ops[0]);
      RunKeepsSorted(Apply(s, ops[0]), ops[1..]);
    }
  }

  lemma ReachableStatesSorted(ops: seq<Op>)
    ensures SortedByGross(Run(InitialState, ops).rows)
  {
    DefaultRowsSorted();
    RunKeepsSorted(InitialState, ops);
  }
}
